=== FILE: README.md ===
# bot-cardoso: the decision logic of `main.py`, in Dafny

bot-cardoso links Slack threads to Jira cards. A top-level message in a watched channel creates a
card and announces it in the message's thread. A mention of the bot inside any thread, in any
channel, is read as a command (`start`, `done`, `cancel`, `restart`). The bot finds the thread's
card by taking
the first message on the last page of the thread's replies whose text matches the announcement
pattern, from any sender; nothing checks who posted it. It then moves the card to the command's
status. Only `start` also assigns the card to the sender, and only `done` also adds a check mark
to the thread.

This project takes that logic out of the Slack and Jira calls and states it as pure functions.
Every call the handlers make becomes an input of type `Attempt<T>`: either the call's answer
(`Ok`) or the fact that it raised (`Raised`). Each handler returns an outcome datatype that says
which path it took. The modules follow the parts of `main.py`:

- `Wrappers`: `Option` and `Attempt`.
- `Text`: Python's `str.strip()`, `str.lower()` (ASCII letters), `str.find` and the character
  classes involved.
- `Commands`: the command table and the reduction of a mention's text to a command word.
- `Transitions`: choosing the Jira transition for a target status.
- `Announcement`: the announcement text and a hand-written recognizer for the one regular
  expression `Card criado no Jira:.*?\|([A-Z]+-\d+)>`, searched as `re.search` does.
  - The match starts at the leftmost position that admits one.
  - At that start, the lazy `.*?` takes the fewest characters.
  - `.` never matches a line feed.
- `Thread`: fetching a thread page by page, and scanning for the card key.
- `Settings`: the configuration the handlers read.
- `Card`: the summary, the description, the fields sent to Jira, and card creation with its
  announcement.
- `Handlers`: the plain-message handler and the mention handler, with their checks in source order.

Some behaviours of the code are easy to miss, and the model keeps them:

- **Key lookup.** The lookup gathers every page of the thread's replies, but then scans only the
  messages of the last page it fetched (`main.py:72` iterates `result`, not `messages`), and it
  returns the first match there. `Thread.AnnouncementOnEarlierPageIsMissed` shows a two-page
  thread whose key is missed, although the gathered messages hold it.
- **Commands.** There are exactly four commands, mapped to "In Progress", "Done", "Cancel" and
  "Restart" (`main.py:14-19`).
- **Invalid commands.** The reply to an invalid command lists the valid commands; it does not
  repeat the token (`main.py:176-178`).
- **Mentions in any channel.** The mention handler never checks the channel. A `restart` in a
  thread of a channel that is not watched still creates a card there (`main.py:158-167`).
- **After the transition.** Only `done` adds a reaction, the check mark (`main.py:197-205`);
  no other command does anything after the transition.

## Model

| member | source | states |
|---|---|---|
| Commands.StatusFor | main.py:14-19 | a command has a status exactly when it is one of the four table keys, and each key maps to its own status |
| Commands.LookupIn | main.py:174 | dictionary lookup: a value is found exactly when some entry has the key, and the value found belongs to that key |
| Commands.ValidCommands | main.py:177 | the list an invalid command is answered with is the table's keys in declaration order |
| Commands.AfterFirstCloser | main.py:156 | `split('>', 1)[-1]`: the whole text when it has no `>`, otherwise exactly what follows the first `>` |
| Commands.ParseCommand | main.py:156 | the command word never starts or ends with whitespace and holds no upper-case letter; `Commands.ParseMention` and `Commands.ParseBare` give its value |
| Commands.ParseMention | main.py:156 | a tag up to `>`, whitespace, a token without surrounding whitespace, then whitespace, parse to the lower-cased token |
| Commands.ParseBare | main.py:156 | a text without `>` is stripped whole: whitespace, a token without surrounding whitespace, then whitespace, parse to the lower-cased token |
| Commands.ParseDoneExample | main.py:156 | `"<@U1>  DONE "` parses to `"done"` |
| Text.FirstIndex | main.py:156 | the position found holds the character and nothing before it does; none is found exactly when the character is absent |
| Text.FirstIndexAfter | main.py:156 | in a text that starts with a stretch free of a character, then that character, the first occurrence is right after the stretch |
| Text.Lower | main.py:156 | lower-casing keeps the length, turns each ASCII upper-case letter into its lower-case letter and keeps every other character |
| Text.Strip | main.py:156 | the stripped text has no whitespace at either end, and it is the slice of the input with only whitespace before and after it |
| Text.StripSurrounded | main.py:156 | stripping a trimmed text surrounded by any whitespace gives back that text |
| Text.LowerKeepsTrimmed | main.py:156 | lower-casing neither adds nor removes whitespace at the ends |
| Transitions.FirstMatching | main.py:192 | the position found is the first whose name equals the target when both are lower-cased; none is found exactly when no name matches |
| Transitions.LeadsTo | main.py:192 | a transition leads to a status when the two names agree after lower-casing both; `Transitions.SelectionIgnoresCase` shows that only the lower-cased target matters |
| Transitions.SelectTransition | main.py:191-195 | a transition is selected exactly when one matches, and it is the first match in list order |
| Transitions.AvailableNames | main.py:206-208 | the names reported are every transition's name, in the original order |
| Transitions.SelectionIgnoresCase | main.py:192 | targets that agree after lower-casing select the same transition |
| Transitions.SkipsNonMatching | main.py:192 | transitions in front that do not match do not change the choice |
| Transitions.SelectionExample | main.py:191-208 | with "In Progress" and "Done" offered, `done` selects "Done", "Blocked" selects none, and both names are reported |
| Announcement.KeyTail | main.py:74 | a key read at a position is a well-formed key standing between a vertical bar and `>` there |
| Announcement.KeyTailExact | main.py:74 | the tail recognizer reports exactly the well-formed keys that stand between a vertical bar and `>` at the position |
| Announcement.KeyTailComplete | main.py:74 | every well-formed key between a vertical bar and `>` is recognized |
| Announcement.LazyScan | main.py:74 | the lazy `.*?` stops at the first position, before any line feed, where the key tail matches; it fails only when no such position exists |
| Announcement.SearchFrom | main.py:74 | the search finds the leftmost start of a match, and at that start the nearest vertical bar; it fails only when no match exists |
| Announcement.ExtractKey | main.py:74-76 | the key captured is well-formed; `Announcement.ExtractKeyMatches` says which match it comes from |
| Announcement.ExtractKeyMatches | main.py:74-76 | there is no key exactly when the pattern matches nowhere; otherwise the key belongs to the leftmost match with the shortest `.*?` |
| Announcement.ExtractAnnouncement | main.py:113-114 | round trip: the key written into an announcement is read back from it, for any permalink without a vertical bar or line feed |
| Announcement.AnnouncementText | main.py:113-114 | the announcement starts with the marker the key lookup searches for and ends with the waiting notice; `Announcement.AnnouncementKeepsLink` reads its link target back and `Announcement.ExtractAnnouncement` its key |
| Announcement.LinkOf | main.py:113 | the link target read back from an announcement holds no vertical bar and stands right before the first vertical bar after the marker and `" <"` |
| Announcement.AnnouncementKeepsLink | main.py:113 | round trip: the announcement links to the permalink it was written with, for any permalink without a vertical bar |
| Thread.FetchFrom | main.py:65-71 | a finished fetch ends on a page that does not continue after pages that all did, and it reports all messages gathered and those of the last page |
| Thread.Fetch | main.py:62-71 | the fetch loop, from the first call: the pages fetched, all their messages, and the last page's messages |
| Thread.FetchedOnce | main.py:65-71 | when the answers describe a finished loop, the fetch succeeds and stops after exactly those pages |
| Thread.TwoPageFetch | main.py:65-71 | a page pointing on to a final page: both pages are gathered and the second is the last |
| Thread.ScanWith | main.py:72-78 | the loop over the messages, for any way of reading one: it stops at the first key or the first unreadable message, and reports no match exactly when every message reads as plain |
| Thread.ScanMessages | main.py:72-78 | the scan reports the first message whose text matches; it raises at the first null text before any match; there is no match exactly when every message passes |
| Thread.ScanStopsAtFirstHit | main.py:72-78 | a first message whose text holds a key ends the scan there with that key |
| Thread.SkipsPassing | main.py:72-78 | a message without a key in front of the hit moves the hit one place on and keeps its key |
| Thread.KeyOnOnlyPage | main.py:60-81 | a thread of one page that does not continue is linked to the key the scan of that page finds |
| Thread.FindKeyInThread | main.py:60-81 | a key is found exactly when the fetch succeeds and the scan of the last page finds one; that key is well-formed and is the first match there |
| Thread.OnlyLastPageCounts | main.py:72 | two threads whose fetches end on the same page have the same key, whatever came before |
| Thread.AnnouncementOnEarlierPageIsMissed | main.py:64-72 | an announcement on the first of two pages is not found, although a scan of all gathered messages would find it |
| Thread.FirstAnnouncementWins | main.py:72-78 | with two announcements on the page, the earlier one's key is returned |
| Thread.ShortTextHasNoKey | main.py:74 | a text shorter than the marker holds no key |
| Thread.FailedFetchHasNoKey | main.py:62-81 | when the first call raises or there is no answer, the lookup gives no key |
| Card.Clean | main.py:98 | the cleaned text is no longer than the input and holds only letters, digits and spaces |
| Card.CleanConcat | main.py:98 | cleaning works character by character, so the kept characters stay in their order |
| Card.CleanKeepsKept | main.py:98 | a text of letters, digits and spaces is left as it is |
| Card.CleanIdempotent | main.py:98 | cleaning twice is cleaning once |
| Card.CleanKeepsCount | main.py:98 | every letter, digit and space occurs in the cleaned text as often as in the input |
| Card.Prefix | main.py:101 | `s[:n]`: the first `n` characters, or all of `s` when it is shorter |
| Card.Summary | main.py:101 | the channel in brackets, then the first 50 cleaned characters (all of them when there are no more), then `...` in every case; its length is fixed by the cleaned text's length |
| Card.Description | main.py:92-96 | the description starts with the requester label and the name, and ends with the message label and the message itself; `Card.DescriptionKeepsHeader` reads the email line and the permalink back, `Card.DescriptionKeepsMessage` the message |
| Card.DescriptionKeepsMessage | main.py:92-96 | round trip: the message is read back verbatim from the description when the name, email and permalink hold no line feed |
| Card.DescriptionKeepsHeader | main.py:93-94 | round trip: when the name, email and permalink hold no line feed, the first line is the requester label, the name and the email in parentheses, and the permalink is read back from the second line |
| Card.FirstLineOf | main.py:93 | the first line is what precedes the first line feed; there is none exactly when the text has no line feed |
| Card.BuildFields | main.py:99-106 | project key, summary, description and type `Task`; a parent exactly when a parent key is configured |
| Card.CreateCard | main.py:83-118 | no card when the user lookup, the permalink or the creation raises; otherwise the card was created with the built fields, and it is announced with the announcement text exactly when the post succeeds |
| Handlers.HandleMessage | main.py:121-138 | a message is skipped exactly when it has no user, comes from a bot or is a thread reply; a card is requested exactly when the channel lookup succeeds and the channel is watched; an unwatched channel is reported under the name the lookup gave |
| Handlers.ChannelName | main.py:130 | the channel's name, or `N/A` when the answer has none; `Handlers.HandleMessage` requests a card exactly when this name is watched |
| Handlers.Qualifies | main.py:124 | a message qualifies when it has a user, no bot id and no thread timestamp; `Handlers.HandleMessage` skips exactly the messages that do not qualify |
| Handlers.AssignFor | main.py:182-189 | assignment is tried only for `start` from a sender with a non-empty email, and succeeds only when exactly one user matches and the assignment goes through |
| Handlers.ReactionFor | main.py:197-205 | a reaction is attempted only for `done`, and is added exactly when the call succeeds |
| Handlers.RunCommand | main.py:181-212 | the command fails exactly when the assignment, the transition listing, or the chosen transition or its confirmation raises, and a failed command records the transition as applied exactly when it went through before the confirmation raised; otherwise a transition is applied exactly when one matches, and it is the first match, else all available names are reported |
| Handlers.HandleMention | main.py:141-212 | the checks in order: sender lookup, thread, authorisation, `restart`, key lookup, command validity, then the command itself |
| Handlers.InThread | main.py:149 | a thread timestamp counts when it is present and not empty, as Python's truth test reads a string; `Handlers.OutsideThreadIgnored` shows that other mentions are ignored |
| Handlers.Authorized | main.py:152 | a sender is authorised when an email is known for them and it is in the allowed list; `Handlers.RejectionTouchesNothing` shows that others are rejected |
| Handlers.RejectionTouchesNothing | main.py:152-154 | a sender who is not allowed gets the rejection, whatever the thread and Jira hold |
| Handlers.OutsideThreadIgnored | main.py:148-150 | a mention outside a thread is ignored |
| Handlers.RestartSkipsLookup | main.py:158-167 | `restart` does not depend on the thread's history or on any Jira answer except card creation |
| Handlers.NotUniqueStillTransitions | main.py:182-195 | when the email does not match exactly one user, the transition goes ahead as if no assignment had been tried |
| Handlers.ZeroAndManyUsersAlike | main.py:185-189 | zero matching users and several matching users give the same outcome |
| Handlers.DoneRunsCommand | main.py:169-181 | an admitted `done` in a thread with a card runs the command towards "Done" |
| Handlers.DoneReacts | main.py:194-205 | for `done`, the check mark is added exactly when a matching transition, its confirmation and the reaction all succeed |
| Handlers.CheckMarkOnlyForDone | main.py:194-205 | a mention ends with the check mark exactly when it is an admitted `done` on a found card whose transition, confirmation and reaction all succeed |
| Handlers.AnnouncedCardIsFound | main.py:109-116 | once a card with a well-formed key is announced, a thread holding the root message and the announcement is linked to that key |
| Handlers.AnnouncementAfterRoot | main.py:72-78 | a root message without a key followed by a message holding one: the scan finds that key at the second message |
| Handlers.DoneScenario | main.py:191-205 | `done` with "In Progress" and "Done" offered applies "Done" and adds the check mark |

## Left out

- Slack and Jira calls are not modelled as code. Each call's answer, or the fact that it raised, is an input. Replies sent with `say` are assumed never to raise.
- Loading and checking the environment (main.py:21-44) is left out. The handlers receive an already-built `Settings.Config`.
- The socket-mode reconnect loop and its 10-second sleep (main.py:214-223) are left out. They are process supervision and time.
- Logging is left out. Portuguese reply texts appear only as the outcome that a reply stands for.
- Text.Lower: lower-casing is modelled for ASCII letters only; `Text.LowerKeepsTrimmed`, `Transitions.LeadsTo` and `Commands.ParseCommand` rest on it. Python's `str.lower()` also maps other letters, but only U+0130 (to "i" plus a combining dot) and U+212A KELVIN SIGN (to "k") lower-case to something holding an ASCII letter. The first also yields a non-ASCII character, and no command word or status name contains a "k". So neither a Jira transition name nor a mention's token compares equal to one of the four ASCII command words or status names in Python unless it does in the model.
- Announcement.KeyTail: reads `\d` as `0`-`9` only; Python's `\d` also accepts other Unicode decimal digits.
- Thread.Fetch: the answers to the fetch loop's calls are a finite sequence, and a call past its end reads as one that raised. A thread whose pages keep announcing more pages, for which main.py:63-69 would keep calling, therefore gives no key in the model. Every run of the loop that ends is covered by a long enough sequence.
- Events are assumed to carry `channel` and `ts`. Both handlers read them with `event[...]`, which raises on a missing key.
- A message's or a mention's `text` is taken as a string, with an absent text read as empty. A `text` present but null would make `split` raise on a mention (main.py:156) and `re.sub` raise on a plain message (main.py:98), so that message gets no card; `Handlers.MessageEvent` holds a `string`, which rules this case out.
- `real_name` and `email` present but null would print as `None` in the description. The model treats them as absent, which gives `N/A`.
- The card's browse link, `new_issue.permalink()`, is taken as part of `create_issue`'s answer.

=== FILE: announcement.dfy ===
/**
 * The announcement posted when a card is created, and a recognizer for the one regular
 * expression that finds the card key in it again:
 *
 *   Card criado no Jira:.*?\|([A-Z]+-\d+)>
 *
 * searched the way `re.search` does: the leftmost start position that admits a match, and
 * at that start the lazy `.*?` takes the fewest characters, never a line feed.
 */
module Announcement {
  import opened Wrappers
  import opened Text

  const Marker := "Card criado no Jira:"
  const Notice := "\nPor favor, aguarde o antendimento do seu card."

  /** The text posted into the thread once the card exists. */
  function AnnouncementText(permalink: string, key: string): (r: string)
    ensures |Marker| + |Notice| <= |r| && r[..|Marker|] == Marker && r[|r| - |Notice|..] == Notice
  {
    Marker + " <" + permalink + "|" + key + ">" + Notice
  }

  /** Reads the link target back out of an announcement: after the marker and `" <"`, up to the first `|`. */
  function LinkOf(s: string): (r: Option<string>)
    ensures r.Some? ==> '|' !in r.value
    ensures r.Some? ==> |Marker| + 2 + |r.value| < |s| && s[|Marker| + 2 + |r.value|] == '|'
  {
    var start := |Marker| + 2;
    if start <= |s| && s[..start] == Marker + " <" then
      match FirstIndex(s[start..], '|')
      case None => None
      case Some(i) =>
        assert s[start..start + i] == s[start..][..i];
        Some(s[start..start + i])
    else None
  }

  /** Round trip: the announcement links to the permalink it was written with, when that holds no `|`. */
  lemma AnnouncementKeepsLink(permalink: string, key: string)
    requires '|' !in permalink
    ensures LinkOf(AnnouncementText(permalink, key)) == Some(permalink)
  {
    assert AnnouncementText(permalink, key) == (Marker + " <") + (permalink + "|" + (key + ">" + Notice));
    LinkLayout(Marker + " <", permalink, key + ">" + Notice);
  }

  /** After the opening `head`, the link runs up to the first `|`. */
  lemma LinkLayout(head: string, p: string, rest: string)
    requires head == Marker + " <" && '|' !in p
    ensures LinkOf(head + (p + "|" + rest)) == Some(p)
  {
    var s := head + (p + "|" + rest);
    assert |head| == |Marker| + 2;
    assert s[..|head|] == head;
    assert s[|head|..] == p + "|" + rest;
    FirstIndexAfter(p, '|', rest);
    assert s[|head|..|head| + |p|] == p;
  }

  /** A card key: one or more of `A`..`Z`, a `-`, one or more of `0`..`9`. */
  ghost predicate IsKey(k: string) {
    exists n :: 0 < n < |k| - 1 && k[n] == '-'
      && (forall i :: 0 <= i < n ==> IsUpper(k[i]))
      && (forall i :: n < i < |k| ==> IsDigit(k[i]))
  }

  /** `s` holds `|`, then `k`, then `>` from position `j` on. */
  ghost predicate KeyAt(s: string, j: nat, k: string) {
    j + |k| + 1 < |s| && s[j] == '|' && s[j + 1..j + 1 + |k|] == k && s[j + 1 + |k|] == '>'
  }

  predicate NoLineFeed(s: string, from: nat, hi: nat)
    requires from <= hi <= |s|
  {
    forall k :: from <= k < hi ==> s[k] != '\n'
  }

  /** Matches `\|([A-Z]+-\d+)>` at position `j` of `s`, giving the captured key. */
  function KeyTail(s: string, j: nat): (r: Option<string>)
    ensures r.Some? ==> IsKey(r.value) && KeyAt(s, j, r.value)
  {
    if j < |s| && s[j] == '|' then
      var u := RunOf(s, j + 1, IsUpper);
      var dash := j + 1 + u;
      if 0 < u && dash < |s| && s[dash] == '-' then
        var d := RunOf(s, dash + 1, IsDigit);
        var close := dash + 1 + d;
        if 0 < d && close < |s| && s[close] == '>' then
          var k := s[j + 1..close];
          assert k[u] == '-';
          assert forall i :: 0 <= i < u ==> k[i] == s[j + 1 + i];
          assert forall i :: u < i < |k| ==> k[i] == s[j + 1 + i];
          Some(k)
        else None
      else None
    else None
  }

  /** The tail recognizer accepts every well-formed key that is followed by `>`. */
  lemma KeyTailComplete(s: string, j: nat, k: string)
    requires IsKey(k) && KeyAt(s, j, k)
    ensures KeyTail(s, j) == Some(k)
  {
    var n :| 0 < n < |k| - 1 && k[n] == '-'
      && (forall i :: 0 <= i < n ==> IsUpper(k[i]))
      && (forall i :: n < i < |k| ==> IsDigit(k[i]));
    KeyTailSplit(s, j, k, n);
  }

  /** `KeyTailComplete` with the position `n` of the key's dash given. */
  lemma KeyTailSplit(s: string, j: nat, k: string, n: nat)
    requires KeyAt(s, j, k)
    requires 0 < n < |k| - 1 && k[n] == '-'
    requires forall i :: 0 <= i < n ==> IsUpper(k[i])
    requires forall i :: n < i < |k| ==> IsDigit(k[i])
    ensures KeyTail(s, j) == Some(k)
  {
    KeyLetters(s, j, k, n);
    KeyDigits(s, j, k, n);
    KeyTailFromRuns(s, j, n, |k| - n - 1);
  }

  /** Within `s`, the letters of a key behind `|` are a maximal run, ended by the key's dash. */
  lemma KeyLetters(s: string, j: nat, k: string, n: nat)
    requires KeyAt(s, j, k)
    requires 0 < n < |k| - 1 && k[n] == '-'
    requires forall i :: 0 <= i < n ==> IsUpper(k[i])
    ensures RunOf(s, j + 1, IsUpper) == n && s[j + 1 + n] == '-'
  {
    assert s[j + 1 + n] == '-' by {
      SliceChars(s, j + 1, k);
    }
    RunWithin(s, j + 1, k, 0, n, IsUpper);
  }

  /** Within `s`, the digits behind a key's dash are a maximal run, ended by `>`. */
  lemma KeyDigits(s: string, j: nat, k: string, n: nat)
    requires KeyAt(s, j, k)
    requires 0 < n < |k| - 1
    requires forall i :: n < i < |k| ==> IsDigit(k[i])
    ensures RunOf(s, j + 2 + n, IsDigit) == |k| - n - 1 && s[j + 1 + |k|] == '>'
  {
    RunWithin(s, j + 1, k, n + 1, |k| - n - 1, IsDigit);
  }

  /** A run of `p` inside the copy of `k` at `a` that `s` ends right after is a maximal run of `s`. */
  lemma RunWithin(s: string, a: nat, k: string, lo: nat, n: nat, p: char -> bool)
    requires a + |k| <= |s| && s[a..a + |k|] == k
    requires lo + n <= |k|
    requires forall i :: lo <= i < lo + n ==> p(k[i])
    requires a + lo + n == |s| || !p(s[a + lo + n])
    ensures RunOf(s, a + lo, p) == n
  {
    SliceChars(s, a, k);
    assert forall i :: a + lo <= i < a + lo + n ==> p(s[i]) by {
      assert forall i :: a + lo <= i < a + lo + n ==> s[i] == k[i - a];
    }
    RunOfIsMaximal(s, a + lo, p, n);
  }

  /** Reading `|`, a run of `u` letters, `-`, a run of `d` digits and `>` captures the key between them. */
  lemma KeyTailFromRuns(s: string, j: nat, u: nat, d: nat)
    requires j + 2 + u + d < |s| && s[j] == '|' && 0 < u && 0 < d
    requires RunOf(s, j + 1, IsUpper) == u && s[j + 1 + u] == '-'
    requires RunOf(s, j + 2 + u, IsDigit) == d && s[j + 2 + u + d] == '>'
    ensures KeyTail(s, j) == Some(s[j + 1..j + 2 + u + d])
  {
  }

  /** The characters of a slice, one by one. */
  lemma SliceChars(s: string, a: nat, k: string)
    requires a + |k| <= |s| && s[a..a + |k|] == k
    ensures forall i :: a <= i < a + |k| ==> s[i] == k[i - a]
  {
    assert forall i :: a <= i < a + |k| ==> s[a..a + |k|][i - a] == s[i];
  }

  /** Exactly the keys `KeyTail` reports: the regex tail at `j` as a predicate on `s`. */
  lemma KeyTailExact(s: string, j: nat, k: string)
    ensures KeyTail(s, j) == Some(k) <==> IsKey(k) && KeyAt(s, j, k)
  {
    if IsKey(k) && KeyAt(s, j, k) {
      KeyTailComplete(s, j, k);
    }
  }

  /**
   * The lazy `.*?` from position `j`: the first position, reached without crossing a line
   * feed, at which the key tail matches.
   */
  function LazyScan(s: string, j: nat): (r: Option<nat>)
    requires j <= |s|
    ensures r.Some? ==> j <= r.value < |s| && NoLineFeed(s, j, r.value) && KeyTail(s, r.value).Some?
    ensures r.Some? ==> forall k :: j <= k < r.value ==> KeyTail(s, k).None?
    ensures r.None? ==> forall k :: j <= k <= |s| && NoLineFeed(s, j, k) ==> KeyTail(s, k).None?
    decreases |s| - j
  {
    match KeyTail(s, j)
    case Some(_) => Some(j)
    case None =>
      if j == |s| || s[j] == '\n' then None
      else LazyScan(s, j + 1)
  }

  /** The pattern matches with its start at `i` and its `|` at `j`. */
  ghost predicate MatchAt(s: string, i: nat, j: nat) {
    && i + |Marker| <= j <= |s|
    && s[i..i + |Marker|] == Marker
    && NoLineFeed(s, i + |Marker|, j)
    && KeyTail(s, j).Some?
  }

  /** Where a match starts and where its `|` stands. */
  datatype Hit = Hit(start: nat, bar: nat)

  /** `re.search` from position `i` on: the leftmost start, and at it the shortest `.*?`. */
  function SearchFrom(s: string, i: nat): (r: Option<Hit>)
    ensures r.Some? ==> i <= r.value.start && MatchAt(s, r.value.start, r.value.bar)
    ensures r.Some? ==> forall j :: r.value.start + |Marker| <= j < r.value.bar ==> !MatchAt(s, r.value.start, j)
    ensures r.Some? ==> forall a, j :: i <= a < r.value.start ==> !MatchAt(s, a, j)
    ensures r.None? ==> forall a, j :: i <= a ==> !MatchAt(s, a, j)
    decreases |s| - i
  {
    if i + |Marker| > |s| then
      assert forall a, j :: i <= a ==> !MatchAt(s, a, j);
      None
    else if s[i..i + |Marker|] == Marker && LazyScan(s, i + |Marker|).Some? then
      Some(Hit(i, LazyScan(s, i + |Marker|).value))
    else
      var r := SearchFrom(s, i + 1);
      assert forall j :: !MatchAt(s, i, j) by {
        if s[i..i + |Marker|] == Marker {
          var l := LazyScan(s, i + |Marker|);
          assert l.None?;
        }
      }
      r
  }

  /**
   * The key the pattern captures in `s`: the one behind the `|` of the leftmost match, taking
   * the nearest `|` at that start; `None` exactly when the pattern matches nowhere.
   */
  function ExtractKey(s: string): (r: Option<string>)
    ensures r.Some? ==> IsKey(r.value)
  {
    match SearchFrom(s, 0)
    case None => None
    case Some(h) => KeyTail(s, h.bar)
  }

  /**
   * What `re.search` promises: no key exactly when the pattern matches nowhere; otherwise the key
   * of the leftmost match, taken with the shortest `.*?`.
   */
  lemma ExtractKeyMatches(s: string)
    ensures ExtractKey(s).None? <==> forall a, j :: !MatchAt(s, a, j)
    ensures ExtractKey(s).Some? ==>
      exists a, j ::
        && MatchAt(s, a, j) && KeyTail(s, j) == ExtractKey(s)
        && (forall b, m :: b < a ==> !MatchAt(s, b, m))
        && (forall m :: m < j ==> !MatchAt(s, a, m))
  {
  }

  /**
   * Round trip: the key written into an announcement is the key read back from it, for any
   * permalink without `|` or line feed.
   */
  lemma ExtractAnnouncement(permalink: string, key: string)
    requires IsKey(key)
    requires '|' !in permalink && '\n' !in permalink
    ensures ExtractKey(AnnouncementText(permalink, key)) == Some(key)
  {
    var s := AnnouncementText(permalink, key);
    var bar := |Marker| + 2 + |permalink|;
    AnnouncementLayout(permalink, key);
    KeyTailComplete(s, bar, key);
    FirstBarWins(s, bar);
    assert ExtractKey(s) == KeyTail(s, bar);
  }

  /** Where the parts of an announcement sit: the marker first, then no `|` or line feed before the key's. */
  lemma AnnouncementLayout(permalink: string, key: string)
    requires '|' !in permalink && '\n' !in permalink
    ensures var s := AnnouncementText(permalink, key); var bar := |Marker| + 2 + |permalink|;
      && |Marker| <= bar <= |s|
      && s[..|Marker|] == Marker
      && KeyAt(s, bar, key)
      && forall k :: |Marker| <= k < bar ==> s[k] != '|' && s[k] != '\n'
  {
    var s := AnnouncementText(permalink, key);
    var bar := |Marker| + 2 + |permalink|;
    assert s[..|Marker|] == Marker;
    assert s[bar + 1..bar + 1 + |key|] == key;
    assert forall k :: |Marker| + 2 <= k < bar ==> s[k] == permalink[k - |Marker| - 2];
  }

  /**
   * When the pattern matches at the very start with its `|` at `bar`, and no `|` stands between
   * the marker and `bar`, the search stops at that match.
   */
  lemma FirstBarWins(s: string, bar: nat)
    requires MatchAt(s, 0, bar)
    requires forall k :: |Marker| <= k < bar ==> s[k] != '|'
    ensures SearchFrom(s, 0) == Some(Hit(0, bar))
  {
    var r := SearchFrom(s, 0);
    assert r.Some? && r.value.start == 0 && r.value.bar <= bar;
    var h := r.value;
    assert s[h.bar] == '|' by {
      assert KeyAt(s, h.bar, KeyTail(s, h.bar).value);
    }
  }
}

=== FILE: card.dfy ===
/** Creating a Jira card from a Slack message and announcing it in the message's thread. */
module Card {
  import opened Wrappers
  import opened Text
  import opened Settings
  import opened Announcement

  /** The characters the summary keeps: `[a-zA-Z0-9 ]`. */
  predicate Kept(c: char) {
    IsUpper(c) || IsLower(c) || IsDigit(c) || c == ' '
  }

  /** `re.sub(r'[^a-zA-Z0-9 ]', '', s)`: drop every character that is not kept. */
  function Clean(s: string): (r: string)
    ensures |r| <= |s|
    ensures forall i :: 0 <= i < |r| ==> Kept(r[i])
  {
    if |s| == 0 then ""
    else (if Kept(s[0]) then [s[0]] else "") + Clean(s[1..])
  }

  /** Cleaning works character by character: it distributes over concatenation. */
  lemma {:induction false} CleanConcat(a: string, b: string)
    ensures Clean(a + b) == Clean(a) + Clean(b)
  {
    if |a| > 0 {
      assert (a + b)[1..] == a[1..] + b;
      CleanConcat(a[1..], b);
    } else {
      assert a + b == b;
    }
  }

  /** A text made of kept characters only is left as it is, so cleaning twice is cleaning once. */
  lemma {:induction false} CleanKeepsKept(s: string)
    requires forall i :: 0 <= i < |s| ==> Kept(s[i])
    ensures Clean(s) == s
  {
    if |s| > 0 {
      CleanKeepsKept(s[1..]);
    }
  }

  lemma CleanIdempotent(s: string)
    ensures Clean(Clean(s)) == Clean(s)
  {
    CleanKeepsKept(Clean(s));
  }

  /** Every kept character survives, the same number of times. */
  lemma {:induction false} CleanKeepsCount(s: string, c: char)
    requires Kept(c)
    ensures multiset(Clean(s))[c] == multiset(s)[c]
  {
    if |s| > 0 {
      CleanKeepsCount(s[1..], c);
      assert s == [s[0]] + s[1..];
    }
  }

  /** The length the cleaned text is cut to. */
  const SummaryLength := 50

  /** `s[:n]`. */
  function Prefix(s: string, n: nat): (r: string)
    ensures |r| == if |s| <= n then |s| else n
    ensures r == s[..|r|]
  {
    if |s| <= n then s else s[..n]
  }

  function SummaryHead(channelName: string): string {
    "[" + channelName + "] "
  }

  /** The card summary: the channel in brackets, the cleaned text cut to 50 characters, then `...`. */
  function Summary(channelName: string, text: string): (r: string)
    ensures var head := SummaryHead(channelName);
      && |r| == |head| + (if |Clean(text)| <= SummaryLength then |Clean(text)| else SummaryLength) + 3
      && r[..|head|] == head
      && r[|r| - 3..] == "..."
      && r[|head|..|r| - 3] == Clean(text)[..|r| - |head| - 3]
      && (|Clean(text)| <= SummaryLength ==> r[|head|..|r| - 3] == Clean(text))
      && forall i :: |head| <= i < |r| - 3 ==> Kept(r[i])
  {
    var head := SummaryHead(channelName);
    var body := Prefix(Clean(text), SummaryLength);
    var r := head + body + "...";
    assert r[|head|..|r| - 3] == body;
    r
  }

  const RequesterLabel := "Solicita\U{E7}\U{E3}o de: "
  const ThreadLabel := "Thread no Slack: "
  const MessageLabel := "Mensagem: "

  /** The fixed-format description: requester, link to the Slack message, then the message itself. */
  function Description(name: string, email: string, permalink: string, text: string): (r: string)
    ensures |RequesterLabel| + |name| <= |r| && r[..|RequesterLabel| + |name|] == RequesterLabel + name
    ensures |MessageLabel| + |text| <= |r| && r[|r| - |MessageLabel| - |text|..] == MessageLabel + text
  {
    RequesterLabel + name + " (" + email + ")\n" + ThreadLabel + permalink + "\n\n" + MessageLabel + text
  }

  /** The first position where two line feeds follow each other. */
  function FirstBlankLine(d: string, from: nat): (r: Option<nat>)
    requires from <= |d|
    ensures r.Some? ==> from <= r.value && r.value + 1 < |d| && d[r.value] == '\n' && d[r.value + 1] == '\n'
    ensures r.Some? ==> forall i :: from <= i < r.value ==> !(d[i] == '\n' && d[i + 1] == '\n')
    ensures r.None? ==> forall i :: from <= i < |d| - 1 ==> !(d[i] == '\n' && d[i + 1] == '\n')
    decreases |d| - from
  {
    if from + 1 >= |d| then None
    else if d[from] == '\n' && d[from + 1] == '\n' then Some(from)
    else FirstBlankLine(d, from + 1)
  }

  /** Reads the message back out of a description: what follows the first blank line and the label. */
  function MessageOf(d: string): (r: Option<string>)
    ensures r.Some? ==> exists i :: 0 <= i <= |d| && d[i..] == r.value
  {
    match FirstBlankLine(d, 0)
    case None => None
    case Some(i) =>
      var rest := d[i + 2..];
      if MessageLabel <= rest then
        assert d[i + 2 + |MessageLabel|..] == rest[|MessageLabel|..];
        Some(rest[|MessageLabel|..])
      else None
  }

  /**
   * Round trip: as long as the requester's name, email and the permalink hold no line feed,
   * the message text is recovered verbatim from the description.
   */
  lemma DescriptionKeepsMessage(name: string, email: string, permalink: string, text: string)
    requires '\n' !in name && '\n' !in email && '\n' !in permalink
    ensures MessageOf(Description(name, email, permalink, text)) == Some(text)
  {
    var who := RequesterLabel + name + " (" + email + ")";
    var link := ThreadLabel + permalink;
    var d := Description(name, email, permalink, text);
    assert d == who + "\n" + link + "\n\n" + (MessageLabel + text);
    assert '\n' !in who && '\n' !in link by {
      assert forall i :: 0 <= i < |RequesterLabel| ==> RequesterLabel[i] != '\n';
      assert forall i :: 0 <= i < |ThreadLabel| ==> ThreadLabel[i] != '\n';
    }
    BlankLineAfter(who, link, MessageLabel + text);
    var blank := |who| + 1 + |link|;
    assert d[blank + 2..] == MessageLabel + text;
  }

  /** The first line of a text: everything before its first line feed. */
  function FirstLineOf(d: string): (r: Option<string>)
    ensures r.None? <==> '\n' !in d
    ensures r.Some? ==> |r.value| < |d| && d[..|r.value|] == r.value && d[|r.value|] == '\n' && '\n' !in r.value
  {
    match FirstIndex(d, '\n')
    case None => None
    case Some(i) => Some(d[..i])
  }

  /** Reads the permalink back out of a description: the second line after its label, up to the blank line. */
  function PermalinkOf(d: string): Option<string> {
    match (FirstIndex(d, '\n'), FirstBlankLine(d, 0))
    case (Some(i), Some(b)) =>
      if i + 1 + |ThreadLabel| <= b && d[i + 1..i + 1 + |ThreadLabel|] == ThreadLabel
      then Some(d[i + 1 + |ThreadLabel|..b])
      else None
    case _ => None
  }

  /**
   * Round trip for the head of the description: when the name, email and permalink hold no
   * line feed, the first line is the requester with the email in parentheses, and the
   * permalink is read back from the second line.
   */
  lemma DescriptionKeepsHeader(name: string, email: string, permalink: string, text: string)
    requires '\n' !in name && '\n' !in email && '\n' !in permalink
    ensures FirstLineOf(Description(name, email, permalink, text)) == Some(RequesterLabel + name + " (" + email + ")")
    ensures PermalinkOf(Description(name, email, permalink, text)) == Some(permalink)
  {
    var who := RequesterLabel + name + " (" + email + ")";
    var link := ThreadLabel + permalink;
    var d := Description(name, email, permalink, text);
    assert '\n' !in who && '\n' !in link by {
      assert forall i :: 0 <= i < |RequesterLabel| ==> RequesterLabel[i] != '\n';
      assert forall i :: 0 <= i < |ThreadLabel| ==> ThreadLabel[i] != '\n';
    }
    assert FirstLineOf(d) == Some(who) by {
      assert d == who + "\n" + (link + "\n\n" + (MessageLabel + text));
      FirstLineLayout(who, link + "\n\n" + (MessageLabel + text));
    }
    assert PermalinkOf(d) == Some(permalink) by {
      assert d == who + "\n" + link + "\n\n" + (MessageLabel + text);
      assert ThreadLabel <= link && link[|ThreadLabel|..] == permalink;
      PermalinkLayout(who, link, MessageLabel + text);
    }
  }

  /** The first line of a line, a line feed and the rest is that line. */
  lemma FirstLineLayout(who: string, rest: string)
    requires '\n' !in who
    ensures FirstLineOf(who + "\n" + rest) == Some(who)
  {
    FirstIndexAfter(who, '\n', rest);
    assert (who + "\n" + rest)[..|who|] == who;
  }

  /** Reading the link back from a line, a line feed, a labelled link line, a blank line and the rest. */
  lemma PermalinkLayout(who: string, link: string, rest: string)
    requires '\n' !in who && '\n' !in link && ThreadLabel <= link
    ensures PermalinkOf(who + "\n" + link + "\n\n" + rest) == Some(link[|ThreadLabel|..])
  {
    var d := who + "\n" + link + "\n\n" + rest;
    assert FirstIndex(d, '\n') == Some(|who|) by {
      FirstIndexAfter(who, '\n', link + "\n\n" + rest);
      assert d == who + "\n" + (link + "\n\n" + rest);
    }
    assert FirstBlankLine(d, 0) == Some(|who| + 1 + |link|) by {
      BlankLineAfter(who, link, rest);
    }
    var at := |who| + 1;
    assert d[at..at + |link|] == link;
    assert d[at..at + |ThreadLabel|] == ThreadLabel;
    assert d[at + |ThreadLabel|..at + |link|] == link[|ThreadLabel|..];
  }

  /** In `who`, line feed, `link`, blank line, `rest`, the first blank line follows `link`. */
  lemma BlankLineAfter(who: string, link: string, rest: string)
    requires '\n' !in who && '\n' !in link && |link| > 0
    ensures FirstBlankLine(who + "\n" + link + "\n\n" + rest, 0) == Some(|who| + 1 + |link|)
  {
    var d := who + "\n" + link + "\n\n" + rest;
    var nl := |who|;
    var blank := nl + 1 + |link|;
    assert forall i :: 0 <= i < nl ==> d[i] == who[i];
    assert forall i :: nl + 1 <= i < blank ==> d[i] == link[i - nl - 1];
    assert d[nl] == '\n' && d[nl + 1] == link[0];
    assert d[blank] == '\n' && d[blank + 1] == '\n';
    SkipNoLineFeed(d, 0, nl);
    assert FirstBlankLine(d, nl) == FirstBlankLine(d, nl + 1);
    SkipNoLineFeed(d, nl + 1, blank);
  }

  /** Stretches without a line feed are passed over by the blank-line search. */
  lemma {:induction false} SkipNoLineFeed(d: string, from: nat, hi: nat)
    requires from <= hi <= |d|
    requires forall i :: from <= i < hi ==> d[i] != '\n'
    ensures FirstBlankLine(d, from) == FirstBlankLine(d, hi)
    decreases |d| - from
  {
    if from < hi {
      SkipNoLineFeed(d, from + 1, hi);
    }
  }

  /** The requester as `users_info` describes them. */
  datatype Requester = Requester(realName: Option<string>, email: Option<string>)

  /** What `create_issue` returns: the new card's key and its browse link. */
  datatype NewIssue = NewIssue(key: string, permalink: string)

  /** The fields sent to `create_issue`. */
  datatype Fields = Fields(
    project: string,
    summary: string,
    description: string,
    issueType: string,
    parent: Option<string>)

  /** The answers of the calls card creation makes, in the order it makes them. */
  datatype CardCalls = CardCalls(
    requester: Attempt<Requester>,
    permalink: Attempt<string>,
    created: Attempt<NewIssue>,
    posted: Attempt<()>)

  /** Card creation never raises: it either fails before the card exists, or the card exists and is announced or not. */
  datatype CardOutcome =
    | NotCreated
    | Unannounced(fields: Fields, issue: NewIssue)
    | Announced(fields: Fields, issue: NewIssue, text: string)

  function BuildFields(cfg: Config, channelName: string, text: string, who: Requester, permalink: string): (f: Fields)
    ensures f.project == cfg.projectKey && f.issueType == "Task"
    ensures f.parent.Some? <==> cfg.parentKey.Some?
    ensures f.parent == cfg.parentKey
    ensures f.summary == Summary(channelName, text)
    ensures f.description == Description(who.realName.GetOr("N/A"), who.email.GetOr("N/A"), permalink, text)
  {
    var name := who.realName.GetOr("N/A");
    var email := who.email.GetOr("N/A");
    Fields(cfg.projectKey, Summary(channelName, text), Description(name, email, permalink, text), "Task", cfg.parentKey)
  }

  /** Create the card for `text` posted in channel `channelName`, then announce it in the thread. */
  function CreateCard(text: string, channelName: string, cfg: Config, calls: CardCalls): (r: CardOutcome)
    ensures r.NotCreated? <==> calls.requester.Raised? || calls.permalink.Raised? || calls.created.Raised?
    ensures !r.NotCreated? ==>
      && calls.created == Ok(r.issue)
      && r.fields == BuildFields(cfg, channelName, text, calls.requester.value, calls.permalink.value)
    ensures r.Announced? <==> !r.NotCreated? && calls.posted.Ok?
    ensures r.Announced? ==> r.text == AnnouncementText(r.issue.permalink, r.issue.key)
  {
    match (calls.requester, calls.permalink, calls.created)
    case (Ok(who), Ok(link), Ok(issue)) =>
      var fields := BuildFields(cfg, channelName, text, who, link);
      if calls.posted.Ok? then Announced(fields, issue, AnnouncementText(issue.permalink, issue.key))
      else Unannounced(fields, issue)
    case _ => NotCreated
  }
}

=== FILE: commands.dfy ===
/** The command vocabulary of a mention and how a mention's text is reduced to a command token. */
module Commands {
  import opened Wrappers
  import opened Text

  /** The command-to-status table, in its declaration order. */
  const Table: seq<(string, string)> := [
    ("start", "In Progress"),
    ("done", "Done"),
    ("cancel", "Cancel"),
    ("restart", "Restart")
  ]

  /** The keys of the table in order: the list an invalid command is answered with. */
  function ValidCommands(): (r: seq<string>)
    ensures r == ["start", "done", "cancel", "restart"]
  {
    seq(|Table|, i requires 0 <= i < |Table| => Table[i].0)
  }

  /** Dictionary lookup in the table: the target status of a command, if it has one. */
  function StatusFor(command: string): (r: Option<string>)
    ensures r.Some? <==> command in ValidCommands()
    ensures r == Some("In Progress") <==> command == "start"
    ensures r == Some("Done") <==> command == "done"
    ensures r == Some("Cancel") <==> command == "cancel"
    ensures r == Some("Restart") <==> command == "restart"
  {
    LookupIn(Table, command)
  }

  function LookupIn(table: seq<(string, string)>, key: string): (r: Option<string>)
    ensures r.Some? <==> exists i :: 0 <= i < |table| && table[i].0 == key
    ensures r.Some? ==> exists i :: 0 <= i < |table| && table[i] == (key, r.value)
  {
    if |table| == 0 then None
    else if table[0].0 == key then Some(table[0].1)
    else
      var r := LookupIn(table[1..], key);
      assert forall i :: 0 < i < |table| ==> table[i] == table[1..][i - 1];
      r
  }

  /** `text.split('>', 1)[-1]`: everything after the first `>`, or all of `text` when it has none. */
  function AfterFirstCloser(text: string): (r: string)
    ensures '>' !in text ==> r == text
    ensures '>' in text ==> exists i :: 0 <= i < |text| && text[i] == '>' && '>' !in text[..i] && r == text[i + 1..]
  {
    match FirstIndex(text, '>')
    case None => text
    case Some(i) => text[i + 1..]
  }

  /** The command token of a mention: the text after the first `>`, stripped and lower-cased. */
  function ParseCommand(text: string): (r: string)
    ensures Trimmed(r)
    ensures forall i :: 0 <= i < |r| ==> !IsUpper(r[i])
  {
    var t := Strip(AfterFirstCloser(text));
    LowerKeepsTrimmed(t);
    Lower(t)
  }

  /**
   * Round trip: a mention tag (up to its `>`), whitespace, a token and whitespace parse
   * back to the lower-cased token; `"<@U1>  DONE "` gives `"done"`.
   */
  lemma ParseMention(tag: string, w1: string, token: string, w2: string)
    requires '>' !in tag
    requires AllSpace(w1) && AllSpace(w2) && Trimmed(token)
    ensures ParseCommand(tag + ">" + w1 + token + w2) == Lower(token)
  {
    var text := tag + ">" + w1 + token + w2;
    var rest := w1 + token + w2;
    assert AfterFirstCloser(text) == rest by {
      assert text == tag + ">" + rest;
      AfterTagged(tag, rest);
    }
    assert Strip(rest) == token by {
      StripSurrounded(w1, token, w2);
    }
  }

  /** Without any `>`, the whole text is stripped and lower-cased. */
  lemma ParseBare(w1: string, token: string, w2: string)
    requires '>' !in w1 + token + w2
    requires AllSpace(w1) && AllSpace(w2) && Trimmed(token)
    ensures ParseCommand(w1 + token + w2) == Lower(token)
  {
    StripSurrounded(w1, token, w2);
  }

  lemma {:induction false} AfterTagged(tag: string, rest: string)
    requires '>' !in tag
    ensures AfterFirstCloser(tag + ">" + rest) == rest
  {
    if |tag| > 0 {
      assert (tag + ">" + rest)[1..] == tag[1..] + ">" + rest;
      AfterTagged(tag[1..], rest);
    } else {
      assert tag + ">" + rest == ">" + rest;
    }
  }

  /** The worked example: `"<@U1>  DONE "` is the command `done`. */
  lemma ParseDoneExample()
    ensures ParseCommand("<@U1>  DONE ") == "done"
  {
    assert "<@U1>  DONE " == "<@U1" + ">" + "  " + "DONE" + " ";
    assert AllSpace("  ") && AllSpace(" ");
    assert Trimmed("DONE");
    assert '>' !in "<@U1" by {
      assert forall i :: 0 <= i < 4 ==> "<@U1"[i] != '>';
    }
    assert Lower("DONE") == "done" by {
      var d := Lower("DONE");
      assert d[0] == 'd' && d[1] == 'o' && d[2] == 'n' && d[3] == 'e';
    }
    ParseMention("<@U1", "  ", "DONE", " ");
  }
}

=== FILE: handlers.dfy ===
/**
 * The two event handlers: a plain message in a watched channel creates a card; a mention
 * inside a thread is authorised, parsed and carried out against the thread's card.
 */
module Handlers {
  import opened Wrappers
  import opened Settings
  import opened Commands
  import opened Transitions
  import opened Announcement
  import opened Thread
  import opened Card

  /** `conversations_info` names the channel; without a name it reads as `N/A`. */
  function ChannelName(info: Option<string>): string {
    info.GetOr("N/A")
  }

  // ---------------------------------------------------------------------------
  // Plain messages

  /** The fields of a `message` event the handler reads. */
  datatype MessageEvent = MessageEvent(
    user: Option<string>,
    botId: Option<string>,
    threadTs: Option<string>,
    text: string)

  datatype MessageOutcome =
    | Skipped                        // no user, posted by a bot, or a thread reply
    | LookupFailed                   // `conversations_info` raised
    | NotWatched(channelName: string)
    | CardRequested(card: CardOutcome)

  /** A message that may start a card: a person's top-level message. */
  predicate Qualifies(ev: MessageEvent) {
    ev.user.Some? && ev.botId.None? && ev.threadTs.None?
  }

  function HandleMessage(ev: MessageEvent, cfg: Config, channelInfo: Attempt<Option<string>>, calls: CardCalls)
    : (r: MessageOutcome)
    ensures r.Skipped? <==> !Qualifies(ev)
    ensures r.LookupFailed? <==> Qualifies(ev) && channelInfo.Raised?
    ensures r.CardRequested? <==>
      Qualifies(ev) && channelInfo.Ok? && ChannelName(channelInfo.value) in cfg.includeChannels
    ensures r.CardRequested? ==> r.card == CreateCard(ev.text, ChannelName(channelInfo.value), cfg, calls)
    ensures r.NotWatched? ==> r.channelName == ChannelName(channelInfo.value) && r.channelName !in cfg.includeChannels
  {
    if !Qualifies(ev) then Skipped
    else match channelInfo
      case Raised => LookupFailed
      case Ok(info) =>
        var name := ChannelName(info);
        if name !in cfg.includeChannels then NotWatched(name)
        else CardRequested(CreateCard(ev.text, name, cfg, calls))
  }

  // ---------------------------------------------------------------------------
  // Mentions

  /** The fields of an `app_mention` event the handler reads. */
  datatype MentionEvent = MentionEvent(text: string, threadTs: Option<string>)

  /** Slack's answers to the calls a mention may make. */
  datatype SlackAnswers = SlackAnswers(
    sender: Attempt<Option<string>>,      // `users_info`: the sender's email, if the profile has one
    channelInfo: Attempt<Option<string>>, // `conversations_info`, asked for `restart` only
    replies: seq<Attempt<Page>>,          // `conversations_replies`, call by call
    card: CardCalls)                      // the calls card creation makes

  /** Jira's (and the reaction call's) answers to the calls a command may make. */
  datatype JiraAnswers = JiraAnswers(
    userSearch: Attempt<nat>,             // `search_users`: how many users match the email
    assign: Attempt<()>,                  // `assign_issue`
    transitions: Attempt<seq<Transition>>,
    transition: Attempt<()>,              // `transition_issue`
    issueLink: Attempt<string>,           // `issue(key).permalink()` for the confirmation
    reaction: Attempt<()>)                // `reactions_add` of the check mark

  datatype Assignment =
    | NotAttempted
    | Assigned(email: string)
    | NotUnique(email: string)            // zero or several users found: one reply for both
    | AssignRaised(email: string)         // the search or the assignment raised

  datatype Reaction = NoReaction | Reacted | ReactionFailed

  datatype StatusChange =
    | Transitioned(id: string, reaction: Reaction)
    | NotAllowed(available: seq<string>)

  datatype MentionOutcome =
    | Crashed                              // `users_info` raised before any check
    | Ignored                              // not inside a thread
    | Rejected                             // sender not allowed
    | Restarted(card: CardOutcome)         // `restart`: a new card for the thread
    | RestartFailed                        // `restart`: `conversations_info` raised
    | KeyNotFound
    | InvalidCommand(valid: seq<string>)
    | Processed(key: string, target: string, assignment: Assignment, change: StatusChange)
    | CommandFailed(key: string, assignment: Assignment, applied: Option<string>)

  /** A mention counts as inside a thread when its `thread_ts` is present and non-empty. */
  predicate InThread(threadTs: Option<string>) {
    threadTs.Some? && threadTs.value != ""
  }

  predicate Authorized(email: Option<string>, users: seq<string>) {
    email.Some? && email.value in users
  }

  /** The sender passed every check before the command is read. */
  predicate Admitted(ev: MentionEvent, cfg: Config, slack: SlackAnswers) {
    slack.sender.Ok? && InThread(ev.threadTs) && Authorized(slack.sender.value, cfg.includeUsers)
  }

  /** Assignment is tried for `start` from a sender with a non-empty email; it needs exactly one user. */
  function AssignFor(command: string, email: Option<string>, jira: JiraAnswers): (a: Assignment)
    ensures !a.NotAttempted? <==> command == "start" && email.Some? && email.value != ""
    ensures !a.NotAttempted? ==> a.email == email.value
    ensures a.Assigned? <==> !a.NotAttempted? && jira.userSearch == Ok(1) && jira.assign.Ok?
    ensures a.NotUnique? <==> !a.NotAttempted? && jira.userSearch.Ok? && jira.userSearch.value != 1
  {
    if command == "start" && email.Some? && email.value != "" then
      var e := email.value;
      match jira.userSearch
      case Raised => AssignRaised(e)
      case Ok(n) =>
        if n == 1 then (if jira.assign.Ok? then Assigned(e) else AssignRaised(e))
        else NotUnique(e)
    else NotAttempted
  }

  function ReactionFor(command: string, reaction: Attempt<()>): (r: Reaction)
    ensures r != NoReaction <==> command == "done"
    ensures r == Reacted <==> command == "done" && reaction.Ok?
  {
    if command != "done" then NoReaction
    else if reaction.Ok? then Reacted
    else ReactionFailed
  }

  /** Carry out a valid, non-restart command on card `key`: assign for `start`, then transition. */
  function RunCommand(key: string, command: string, target: string, email: Option<string>, jira: JiraAnswers)
    : (r: MentionOutcome)
    ensures r.Processed? || r.CommandFailed?
    ensures r.key == key && r.assignment == AssignFor(command, email, jira)
    ensures r.Processed? ==> r.target == target
    ensures r.Processed? && r.change.Transitioned? ==>
      && jira.transitions.Ok? && jira.transition.Ok? && jira.issueLink.Ok?
      && SelectTransition(jira.transitions.value, target).Some?
      && r.change.id == SelectTransition(jira.transitions.value, target).value.id
      && r.change.reaction == ReactionFor(command, jira.reaction)
    ensures r.Processed? && r.change.NotAllowed? ==>
      && jira.transitions.Ok?
      && SelectTransition(jira.transitions.value, target).None?
      && r.change.available == AvailableNames(jira.transitions.value)
    ensures r.CommandFailed? && r.applied.Some? ==>
      && jira.transitions.Ok? && jira.transition.Ok? && jira.issueLink.Raised?
      && SelectTransition(jira.transitions.value, target).Some?
      && r.applied.value == SelectTransition(jira.transitions.value, target).value.id
    ensures r.assignment.AssignRaised? ==> r == CommandFailed(key, r.assignment, None)
    ensures r.CommandFailed? <==>
      || AssignFor(command, email, jira).AssignRaised?
      || jira.transitions.Raised?
      || (&& jira.transitions.Ok? && SelectTransition(jira.transitions.value, target).Some?
          && (jira.transition.Raised? || jira.issueLink.Raised?))
    ensures r.Processed? ==> (r.change.Transitioned? <==> SelectTransition(jira.transitions.value, target).Some?)
    ensures r.CommandFailed? ==>
      (r.applied.Some? <==>
        (&& !r.assignment.AssignRaised? && jira.transitions.Ok?
         && SelectTransition(jira.transitions.value, target).Some? && jira.transition.Ok?))
  {
    var a := AssignFor(command, email, jira);
    if a.AssignRaised? then CommandFailed(key, a, None)
    else match jira.transitions
      case Raised => CommandFailed(key, a, None)
      case Ok(ts) =>
        match SelectTransition(ts, target)
        case None => Processed(key, target, a, NotAllowed(AvailableNames(ts)))
        case Some(t) =>
          if jira.transition.Raised? then CommandFailed(key, a, None)
          else if jira.issueLink.Raised? then CommandFailed(key, a, Some(t.id))
          else Processed(key, target, a, Transitioned(t.id, ReactionFor(command, jira.reaction)))
  }

  /** The whole mention handler, checks in the order the handler makes them. */
  function HandleMention(ev: MentionEvent, cfg: Config, slack: SlackAnswers, jira: JiraAnswers)
    : (r: MentionOutcome)
    ensures r.Crashed? <==> slack.sender.Raised?
    ensures r.Ignored? <==> slack.sender.Ok? && !InThread(ev.threadTs)
    ensures r.Rejected? <==> slack.sender.Ok? && InThread(ev.threadTs) && !Authorized(slack.sender.value, cfg.includeUsers)
    ensures (r.Restarted? || r.RestartFailed?) <==> Admitted(ev, cfg, slack) && ParseCommand(ev.text) == "restart"
    ensures r.RestartFailed? ==> slack.channelInfo.Raised?
    ensures r.Restarted? ==>
      slack.channelInfo.Ok? && r.card == CreateCard(ev.text, ChannelName(slack.channelInfo.value), cfg, slack.card)
    ensures r.KeyNotFound? <==>
      Admitted(ev, cfg, slack) && ParseCommand(ev.text) != "restart" && FindKeyInThread(slack.replies).None?
    ensures r.InvalidCommand? <==>
      && Admitted(ev, cfg, slack) && FindKeyInThread(slack.replies).Some?
      && ParseCommand(ev.text) !in ValidCommands()
    ensures r.InvalidCommand? ==> r.valid == ["start", "done", "cancel", "restart"]
    ensures r.Processed? || r.CommandFailed? ==>
      && Admitted(ev, cfg, slack)
      && ParseCommand(ev.text) in ["start", "done", "cancel"]
      && FindKeyInThread(slack.replies) == Some(r.key)
      && r == RunCommand(r.key, ParseCommand(ev.text), StatusFor(ParseCommand(ev.text)).value,
                         slack.sender.value, jira)
  {
    match slack.sender
    case Raised => Crashed
    case Ok(email) =>
      if !InThread(ev.threadTs) then Ignored
      else if !Authorized(email, cfg.includeUsers) then Rejected
      else
        var command := ParseCommand(ev.text);
        if command == "restart" then
          match slack.channelInfo
          case Raised => RestartFailed
          case Ok(info) => Restarted(CreateCard(ev.text, ChannelName(info), cfg, slack.card))
        else
          match FindKeyInThread(slack.replies)
          case None => KeyNotFound
          case Some(key) =>
            match StatusFor(command)
            case None => InvalidCommand(ValidCommands())
            case Some(target) => RunCommand(key, command, target, email, jira)
  }

  // ---------------------------------------------------------------------------
  // Properties relating several runs

  /**
   * A rejected sender causes nothing else: whatever the thread holds and whatever Jira would
   * answer, the outcome is the same rejection.
   */
  lemma RejectionTouchesNothing(ev: MentionEvent, cfg: Config, s1: SlackAnswers, s2: SlackAnswers,
                                j1: JiraAnswers, j2: JiraAnswers)
    requires s1.sender == s2.sender && s1.sender.Ok?
    requires InThread(ev.threadTs) && !Authorized(s1.sender.value, cfg.includeUsers)
    ensures HandleMention(ev, cfg, s1, j1) == HandleMention(ev, cfg, s2, j2) == Rejected
  {
  }

  /** A mention outside a thread is ignored, whoever sends it and whatever it says. */
  lemma OutsideThreadIgnored(ev: MentionEvent, cfg: Config, slack: SlackAnswers, jira: JiraAnswers)
    requires slack.sender.Ok? && (ev.threadTs.None? || ev.threadTs.value == "")
    ensures HandleMention(ev, cfg, slack, jira) == Ignored
  {
  }

  /** `restart` neither reads the thread nor asks Jira anything beyond creating the card. */
  lemma RestartSkipsLookup(ev: MentionEvent, cfg: Config, s1: SlackAnswers, s2: SlackAnswers,
                           j1: JiraAnswers, j2: JiraAnswers)
    requires s1.sender == s2.sender && s1.channelInfo == s2.channelInfo && s1.card == s2.card
    requires Admitted(ev, cfg, s1) && ParseCommand(ev.text) == "restart"
    ensures HandleMention(ev, cfg, s1, j1) == HandleMention(ev, cfg, s2, j2)
  {
  }

  /** Replaces the assignment part of an outcome that carries one. */
  function WithAssignment(r: MentionOutcome, a: Assignment): MentionOutcome {
    match r
    case Processed(k, t, _, c) => Processed(k, t, a, c)
    case CommandFailed(k, _, applied) => CommandFailed(k, a, applied)
    case _ => r
  }

  /**
   * Zero users and several users give the same reply, and in both cases the transition is
   * still attempted exactly as if no assignment had been tried.
   */
  lemma NotUniqueStillTransitions(key: string, target: string, email: string, j: JiraAnswers, n: nat)
    requires email != "" && n != 1 && j.userSearch == Ok(n)
    ensures RunCommand(key, "start", target, Some(email), j)
            == WithAssignment(RunCommand(key, "start", target, Some(""), j), NotUnique(email))
  {
  }

  lemma ZeroAndManyUsersAlike(key: string, target: string, email: string, j: JiraAnswers, n: nat)
    requires email != "" && n >= 2
    ensures RunCommand(key, "start", target, Some(email), j.(userSearch := Ok(0)))
            == RunCommand(key, "start", target, Some(email), j.(userSearch := Ok(n)))
  {
  }

  /** Only `done` adds the check mark, and only once its transition was applied and confirmed. */
  lemma CheckMarkOnlyForDone(ev: MentionEvent, cfg: Config, slack: SlackAnswers, jira: JiraAnswers)
    ensures var r := HandleMention(ev, cfg, slack, jira);
      r.Processed? && r.change.Transitioned? && r.change.reaction == Reacted
      <==>
      && Admitted(ev, cfg, slack) && ParseCommand(ev.text) == "done"
      && FindKeyInThread(slack.replies).Some?
      && jira.transitions.Ok? && SelectTransition(jira.transitions.value, "Done").Some?
      && jira.transition.Ok? && jira.issueLink.Ok? && jira.reaction.Ok?
  {
    ReactedMeansDone(ev, cfg, slack, jira);
    if Admitted(ev, cfg, slack) && ParseCommand(ev.text) == "done" && FindKeyInThread(slack.replies).Some? {
      DoneRunsCommand(ev, cfg, slack, jira);
      DoneReacts(FindKeyInThread(slack.replies).value, slack.sender.value, jira);
    }
  }

  lemma DoneRunsCommand(ev: MentionEvent, cfg: Config, slack: SlackAnswers, jira: JiraAnswers)
    requires Admitted(ev, cfg, slack) && ParseCommand(ev.text) == "done"
    requires FindKeyInThread(slack.replies).Some?
    ensures HandleMention(ev, cfg, slack, jira)
            == RunCommand(FindKeyInThread(slack.replies).value, "done", "Done", slack.sender.value, jira)
  {
    assert StatusFor("done") == Some("Done");
  }

  /** `done` on a card reacts exactly when the transition, the confirmation and the reaction all go through. */
  lemma DoneReacts(key: string, email: Option<string>, jira: JiraAnswers)
    ensures var r := RunCommand(key, "done", "Done", email, jira);
      r.Processed? && r.change.Transitioned? && r.change.reaction == Reacted
      <==>
      && jira.transitions.Ok? && SelectTransition(jira.transitions.value, "Done").Some?
      && jira.transition.Ok? && jira.issueLink.Ok? && jira.reaction.Ok?
  {
    assert AssignFor("done", email, jira) == NotAttempted;
  }

  lemma ReactedMeansDone(ev: MentionEvent, cfg: Config, slack: SlackAnswers, jira: JiraAnswers)
    ensures var r := HandleMention(ev, cfg, slack, jira);
      r.Processed? && r.change.Transitioned? && r.change.reaction == Reacted ==>
      && Admitted(ev, cfg, slack) && ParseCommand(ev.text) == "done"
      && FindKeyInThread(slack.replies).Some?
      && jira.transitions.Ok? && SelectTransition(jira.transitions.value, "Done").Some?
      && jira.transition.Ok? && jira.issueLink.Ok? && jira.reaction.Ok?
  {
    var r := HandleMention(ev, cfg, slack, jira);
    if r.Processed? && r.change.Transitioned? && r.change.reaction == Reacted {
      var command := ParseCommand(ev.text);
      assert r == RunCommand(r.key, command, StatusFor(command).value, slack.sender.value, jira);
      assert command == "done";
    }
  }

  /**
   * Creation and lookup fit together: once a card with a well-formed key is announced, a
   * thread holding the root message and the announcement is linked to that key.
   */
  lemma AnnouncedCardIsFound(text: string, channelName: string, cfg: Config, calls: CardCalls, root: Message)
    requires CreateCard(text, channelName, cfg, calls).Announced?
    requires IsKey(calls.created.value.key)
    requires '|' !in calls.created.value.permalink && '\n' !in calls.created.value.permalink
    requires Passes(root)
    ensures var card := CreateCard(text, channelName, cfg, calls);
      FindKeyInThread([Ok(Page([root, Message(Str(card.text))], false, None))]) == Some(card.issue.key)
  {
    var card := CreateCard(text, channelName, cfg, calls);
    var key := card.issue.key;
    assert ExtractKey(card.text) == Some(key) by {
      ExtractAnnouncement(card.issue.permalink, key);
    }
    AnnouncementAfterRoot(root, card.text, key);
    KeyOnOnlyPage([root, Message(Str(card.text))], 1, key);
  }

  lemma AnnouncementAfterRoot(root: Message, t: string, key: string)
    requires Passes(root) && ExtractKey(t) == Some(key)
    ensures ScanMessages([root, Message(Str(t))]) == Found(1, key)
  {
    var announcement := Message(Str(t));
    assert ScanMessages([root] + [announcement]) == Found(1, key) by {
      ScanStopsAtFirstHit([announcement], key);
      SkipsPassing(root, [announcement], 0, key);
    }
    assert [root, announcement] == [root] + [announcement];
  }

  /** The worked scenario: `done` on a card offering "In Progress" and "Done" applies "Done" and adds the check mark. */
  lemma DoneScenario(key: string, email: string, link: string)
    ensures var jira := JiraAnswers(Raised, Raised,
        Ok([Transition("1", "In Progress"), Transition("2", "Done")]), Ok(()), Ok(link), Ok(()));
      RunCommand(key, "done", "Done", Some(email), jira)
        == Processed(key, "Done", NotAttempted, Transitioned("2", Reacted))
  {
    SelectionExample();
    SelectionIgnoresCase([Transition("1", "In Progress"), Transition("2", "Done")], "Done", "done");
  }
}

=== FILE: settings.dfy ===
/** The process configuration the handlers read, already loaded from the environment. */
module Settings {
  import opened Wrappers

  /**
   * `INCLUDE_CHANNELS` and `INCLUDE_USERS` after splitting at commas, the project key, and the
   * optional `JIRA_PARENT_KEY`.
   */
  datatype Config = Config(
    includeChannels: seq<string>,
    includeUsers: seq<string>,
    projectKey: string,
    parentKey: Option<string>)
}

=== FILE: text.dfy ===
/** Character classes and the string operations `str.strip()` and `str.lower()`. */
module Text {
  import opened Wrappers

  /** Python's `str.isspace()`: the characters `str.strip()` removes when given no argument. */
  predicate IsSpace(c: char) {
    || ('\t' <= c <= '\r')
    || ('\U{1C}' <= c <= '\U{1F}')
    || c == ' ' || c == '\U{85}' || c == '\U{A0}' || c == '\U{1680}'
    || ('\U{2000}' <= c <= '\U{200A}')
    || c == '\U{2028}' || c == '\U{2029}' || c == '\U{202F}' || c == '\U{205F}' || c == '\U{3000}'
  }

  predicate IsUpper(c: char) { 'A' <= c <= 'Z' }

  predicate IsLower(c: char) { 'a' <= c <= 'z' }

  /** An ASCII decimal digit (the model reads the regex class `\d` as `[0-9]`). */
  predicate IsDigit(c: char) { '0' <= c <= '9' }

  predicate AllSpace(s: string) {
    forall i :: 0 <= i < |s| ==> IsSpace(s[i])
  }

  /** True when `s` neither starts nor ends with whitespace. */
  predicate Trimmed(s: string) {
    |s| == 0 || (!IsSpace(s[0]) && !IsSpace(s[|s| - 1]))
  }

  function LowerChar(c: char): (r: char)
    ensures !IsUpper(r)
    ensures IsUpper(c) ==> IsLower(r) && r as int - c as int == 32
    ensures !IsUpper(c) ==> r == c
  {
    if IsUpper(c) then (c as int + 32) as char else c
  }

  /** `str.lower()` restricted to ASCII letters; every other character is kept. */
  function Lower(s: string): (r: string)
    ensures |r| == |s|
    ensures forall i :: 0 <= i < |s| ==> r[i] == LowerChar(s[i])
  {
    seq(|s|, i requires 0 <= i < |s| => LowerChar(s[i]))
  }

  /** Lower-casing neither adds nor removes whitespace at the ends. */
  lemma LowerKeepsTrimmed(s: string)
    ensures Trimmed(Lower(s)) <==> Trimmed(s)
  {
    if |s| > 0 {
      var a, b := s[0], s[|s| - 1];
      assert IsSpace(LowerChar(a)) <==> IsSpace(a) by {
        if IsUpper(a) { assert IsLower(LowerChar(a)); }
      }
      assert IsSpace(LowerChar(b)) <==> IsSpace(b) by {
        if IsUpper(b) { assert IsLower(LowerChar(b)); }
      }
    }
  }

  /** The position of the first occurrence of `c` in `s`, if any (`str.find`). */
  function FirstIndex(s: string, c: char): (r: Option<nat>)
    ensures r.None? <==> c !in s
    ensures r.Some? ==> r.value < |s| && s[r.value] == c && c !in s[..r.value]
  {
    if |s| == 0 then None
    else if s[0] == c then Some(0)
    else
      match FirstIndex(s[1..], c)
      case None => None
      case Some(i) =>
        assert s[..i + 1] == [s[0]] + s[1..][..i];
        Some(i + 1)
  }

  /** A line without `c`, then `c`: the first `c` is the one right after the line. */
  lemma {:induction false} FirstIndexAfter(line: string, c: char, rest: string)
    requires c !in line
    ensures FirstIndex(line + [c] + rest, c) == Some(|line|)
  {
    var s := line + [c] + rest;
    if |line| == 0 {
      assert s[0] == c;
    } else {
      assert line[0] != c;
      assert s[1..] == line[1..] + [c] + rest;
      FirstIndexAfter(line[1..], c, rest);
    }
  }

  /** The number of characters from `from` on that satisfy `p`, stopping at the first that does not. */
  function RunOf(s: string, from: nat, p: char -> bool): (n: nat)
    requires from <= |s|
    ensures from + n <= |s|
    ensures forall k :: from <= k < from + n ==> p(s[k])
    ensures from + n == |s| || !p(s[from + n])
    decreases |s| - from
  {
    if from < |s| && p(s[from]) then 1 + RunOf(s, from + 1, p) else 0
  }

  /** A run of characters satisfying `p` is exactly as long as any maximal run that is claimed. */
  lemma RunOfIsMaximal(s: string, from: nat, p: char -> bool, n: nat)
    requires from + n <= |s|
    requires forall k :: from <= k < from + n ==> p(s[k])
    requires from + n == |s| || !p(s[from + n])
    ensures RunOf(s, from, p) == n
  {
    var m := RunOf(s, from, p);
    assert from + m < |s| ==> !p(s[from + m]);
  }

  /** The number of characters before `hi`, but not before `lo`, that satisfy `p`, read backwards. */
  function RunBefore(s: string, lo: nat, hi: nat, p: char -> bool): (n: nat)
    requires lo <= hi <= |s|
    ensures lo + n <= hi
    ensures forall k :: hi - n <= k < hi ==> p(s[k])
    ensures lo + n == hi || !p(s[hi - n - 1])
    decreases hi
  {
    if lo < hi && p(s[hi - 1]) then 1 + RunBefore(s, lo, hi - 1, p) else 0
  }

  lemma RunBeforeIsMaximal(s: string, lo: nat, hi: nat, p: char -> bool, n: nat)
    requires lo + n <= hi <= |s|
    requires forall k :: hi - n <= k < hi ==> p(s[k])
    requires lo + n == hi || !p(s[hi - n - 1])
    ensures RunBefore(s, lo, hi, p) == n
  {
    var m := RunBefore(s, lo, hi, p);
    assert lo + m < hi ==> !p(s[hi - m - 1]);
  }

  /**
   * `str.strip()`: the slice of `s` that is left once the whitespace at the start is dropped and
   * then the whitespace at the end of what remains.
   */
  function Strip(s: string): (r: string)
    ensures Trimmed(r)
    ensures var i := RunOf(s, 0, IsSpace);
      && i + |r| <= |s| && s[i..i + |r|] == r
      && AllSpace(s[..i]) && AllSpace(s[i + |r|..])
  {
    var i := RunOf(s, 0, IsSpace);
    var j := |s| - RunBefore(s, i, |s|, IsSpace);
    assert AllSpace(s[j..]) by {
      assert forall k :: 0 <= k < |s| - j ==> s[j..][k] == s[j + k];
    }
    s[i..j]
  }

  /** A trimmed string surrounded by whitespace strips back to itself. */
  lemma StripSurrounded(w1: string, t: string, w2: string)
    requires AllSpace(w1) && AllSpace(w2) && Trimmed(t)
    ensures Strip(w1 + t + w2) == t
  {
    var s := w1 + t + w2;
    assert forall k :: 0 <= k < |w1| ==> s[k] == w1[k];
    assert forall k :: 0 <= k < |t| ==> s[|w1| + k] == t[k];
    assert forall k :: 0 <= k < |w2| ==> s[|w1| + |t| + k] == w2[k];
    if |t| > 0 {
      RunOfIsMaximal(s, 0, IsSpace, |w1|);
      RunBeforeIsMaximal(s, |w1|, |s|, IsSpace, |w2|);
      assert s[|w1|..|w1| + |t|] == t;
    } else {
      RunOfIsMaximal(s, 0, IsSpace, |s|);
    }
  }
}

=== FILE: thread.dfy ===
/**
 * Finding the card key of a thread: fetch the replies page by page, then scan for the
 * announcement. As written, the scan walks the messages of the last page fetched only,
 * not all the pages gathered, and stops at the first message that matches.
 */
module Thread {
  import opened Wrappers
  import opened Announcement

  /** The `text` entry of a message: absent, present but null, or a string (`Str`). */
  datatype Body = Missing | Null | Str(s: string)

  datatype Message = Message(text: Body)

  /** One answer of `conversations_replies`. */
  datatype Page = Page(messages: seq<Message>, hasMore: bool, nextCursor: Option<string>)

  /** The fetch loop asks for another page only when one is announced and a non-empty cursor is given. */
  predicate Continues(p: Page) {
    p.hasMore && p.nextCursor.Some? && p.nextCursor.value != ""
  }

  /** All messages of `pages`, in order. */
  function Flatten(pages: seq<Page>): seq<Message> {
    if |pages| == 0 then [] else Flatten(pages[..|pages| - 1]) + pages[|pages| - 1].messages
  }

  /** The pages the loop fetched: the first `n` answers, all returned, all but the last continuing. */
  ghost predicate FetchedExactly(replies: seq<Attempt<Page>>, n: nat) {
    && 0 < n <= |replies|
    && (forall k :: 0 <= k < n ==> replies[k].Ok?)
    && (forall k :: 0 <= k < n - 1 ==> Continues(replies[k].value))
    && !Continues(replies[n - 1].value)
  }

  /** What the fetch loop leaves behind: every message gathered, and the last page's messages. */
  datatype History = History(calls: nat, all: seq<Message>, last: seq<Message>)

  function PagesOf(replies: seq<Attempt<Page>>, n: nat): (r: seq<Page>)
    requires n <= |replies|
    requires forall k :: 0 <= k < n ==> replies[k].Ok?
    ensures |r| == n
    ensures forall k :: 0 <= k < n ==> r[k] == replies[k].value
  {
    seq(n, k requires 0 <= k < n => replies[k].value)
  }

  /**
   * `replies[k]` is the client's answer to the loop's `k`-th call; a call the sequence does not
   * answer counts as one that raised.
   */
  function Fetch(replies: seq<Attempt<Page>>): (r: Option<History>)
    ensures r.Some? ==> FetchedExactly(replies, r.value.calls)
    ensures r.Some? ==> r.value.last == replies[r.value.calls - 1].value.messages
    ensures r.Some? ==> r.value.all == Flatten(PagesOf(replies, r.value.calls))
  {
    FetchFrom(replies, 0, [])
  }

  function FetchFrom(replies: seq<Attempt<Page>>, i: nat, acc: seq<Message>): (r: Option<History>)
    requires i <= |replies|
    requires forall k :: 0 <= k < i ==> replies[k].Ok? && Continues(replies[k].value)
    requires acc == Flatten(PagesOf(replies, i))
    ensures r.Some? ==> i < r.value.calls && FetchedExactly(replies, r.value.calls)
    ensures r.Some? ==> r.value.last == replies[r.value.calls - 1].value.messages
    ensures r.Some? ==> r.value.all == Flatten(PagesOf(replies, r.value.calls))
    decreases |replies| - i
  {
    if i == |replies| then None
    else match replies[i]
      case Raised => None
      case Ok(p) =>
        var all := acc + p.messages;
        assert all == Flatten(PagesOf(replies, i + 1)) by {
          assert PagesOf(replies, i + 1)[..i] == PagesOf(replies, i);
        }
        if Continues(p) then FetchFrom(replies, i + 1, all)
        else Some(History(i + 1, all, p.messages))
  }

  /**
   * The fetch succeeds whenever the answers describe a finished loop, and it stops exactly
   * there: at most one `n` satisfies `FetchedExactly`, and `Fetch` finds it.
   */
  lemma FetchedOnce(replies: seq<Attempt<Page>>, n: nat)
    requires FetchedExactly(replies, n)
    ensures Fetch(replies).Some? && Fetch(replies).value.calls == n
  {
    FetchFromStops(replies, 0, [], n);
  }

  lemma {:induction false} FetchFromStops(replies: seq<Attempt<Page>>, i: nat, acc: seq<Message>, n: nat)
    requires i < n && FetchedExactly(replies, n)
    requires forall k :: 0 <= k < i ==> replies[k].Ok? && Continues(replies[k].value)
    requires acc == Flatten(PagesOf(replies, i))
    ensures FetchFrom(replies, i, acc).Some? && FetchFrom(replies, i, acc).value.calls == n
    decreases n - i
  {
    var p := replies[i].value;
    if i < n - 1 {
      assert Continues(p);
      var all := acc + p.messages;
      assert all == Flatten(PagesOf(replies, i + 1)) by {
        assert PagesOf(replies, i + 1)[..i] == PagesOf(replies, i);
      }
      FetchFromStops(replies, i + 1, all, n);
    }
  }

  /** Outcome of scanning messages: a key at some message, no match, or `re.search` raising on a null text. */
  datatype Scan = Found(at: nat, key: string) | NoMatch | Raises(at: nat)

  /** The text the pattern is searched in; an absent `text` reads as the empty string. */
  function TextOf(m: Message): string {
    match m.text
    case Str(s) => s
    case _ => ""
  }

  /** A message the scan passes over: it has a text (or none at all) that the pattern does not match. */
  predicate Passes(m: Message) {
    !m.text.Null? && ExtractKey(TextOf(m)).None?
  }

  /** What the scan reads from one message: a null text, no key, or a key. */
  datatype Reading = Unreadable | Plain | Keyed(key: string)

  /** One message as the scan sees it: `re.search` raises on a null text, otherwise it finds a key or not. */
  function ReadingOf(m: Message): Reading {
    if m.text.Null? then Unreadable
    else match ExtractKey(TextOf(m))
      case None => Plain
      case Some(k) => Keyed(k)
  }

  /** Scan in order with any way of reading a message; the first key or the first unreadable message ends it. */
  function ScanWith(ms: seq<Message>, read: Message -> Reading): (r: Scan)
    ensures r.Found? ==> r.at < |ms| && read(ms[r.at]) == Keyed(r.key)
    ensures r.Raises? ==> r.at < |ms| && read(ms[r.at]).Unreadable?
    ensures !r.NoMatch? ==> forall k :: 0 <= k < r.at ==> read(ms[k]).Plain?
    ensures r.NoMatch? <==> forall k :: 0 <= k < |ms| ==> read(ms[k]).Plain?
  {
    if |ms| == 0 then NoMatch
    else match read(ms[0])
      case Unreadable => Raises(0)
      case Keyed(k) => Found(0, k)
      case Plain =>
        match ScanWith(ms[1..], read)
        case Found(i, k) => Found(i + 1, k)
        case NoMatch => NoMatch
        case Raises(i) => Raises(i + 1)
  }

  /** Scan messages in order; the first match wins, a null text ends the scan with an exception. */
  function ScanMessages(ms: seq<Message>): (r: Scan)
    ensures r.Found? ==> r.at < |ms| && !ms[r.at].text.Null? && ExtractKey(TextOf(ms[r.at])) == Some(r.key)
    ensures r.Raises? ==> r.at < |ms| && ms[r.at].text.Null?
    ensures !r.NoMatch? ==> forall k :: 0 <= k < r.at ==> Passes(ms[k])
    ensures r.NoMatch? <==> forall k :: 0 <= k < |ms| ==> Passes(ms[k])
  {
    ScanWith(ms, ReadingOf)
  }

  lemma ScanStopsAtFirstHit(ms: seq<Message>, key: string)
    requires |ms| > 0 && ms[0].text.Str? && ExtractKey(ms[0].text.s) == Some(key)
    ensures ScanMessages(ms) == Found(0, key)
  {
    assert ReadingOf(ms[0]) == Keyed(key);
  }

  /** A message that passes in front of the hit moves the hit one place on. */
  lemma SkipsPassing(m: Message, ms: seq<Message>, i: nat, key: string)
    requires Passes(m) && ScanMessages(ms) == Found(i, key)
    ensures ScanMessages([m] + ms) == Found(i + 1, key)
  {
    assert ReadingOf(m) == Plain;
    assert ([m] + ms)[1..] == ms;
  }

  /** A thread of one page: its key is the one the scan of that page finds. */
  lemma KeyOnOnlyPage(ms: seq<Message>, i: nat, key: string)
    requires ScanMessages(ms) == Found(i, key)
    ensures FindKeyInThread([Ok(Page(ms, false, None))]) == Some(key)
  {
    FetchedOnce([Ok(Page(ms, false, None))], 1);
  }

  /** The lookup as a whole: any raised call, or no match on the last page, gives `None`. */
  function FindKeyInThread(replies: seq<Attempt<Page>>): (r: Option<string>)
    ensures r.Some? ==> IsKey(r.value)
    ensures r.Some? <==> Fetch(replies).Some? && ScanMessages(Fetch(replies).value.last).Found?
    ensures r.Some? ==> r.value == ScanMessages(Fetch(replies).value.last).key
  {
    match Fetch(replies)
    case None => None
    case Some(h) =>
      match ScanMessages(h.last)
      case Found(_, k) => Some(k)
      case _ => None
  }

  /** Only the last page matters: two fetches that end on the same page find the same key. */
  lemma OnlyLastPageCounts(r1: seq<Attempt<Page>>, n1: nat, r2: seq<Attempt<Page>>, n2: nat)
    requires FetchedExactly(r1, n1) && FetchedExactly(r2, n2)
    requires r1[n1 - 1].value.messages == r2[n2 - 1].value.messages
    ensures FindKeyInThread(r1) == FindKeyInThread(r2)
  {
    FetchedOnce(r1, n1);
    FetchedOnce(r2, n2);
  }

  /**
   * A thread whose announcement sits on the first page is not linked once a second page
   * without one is fetched, although the gathered messages hold the key.
   */
  lemma AnnouncementOnEarlierPageIsMissed(permalink: string, key: string)
    requires IsKey(key)
    requires '|' !in permalink && '\n' !in permalink
    ensures var replies := [
        Ok(Page([Message(Str(AnnouncementText(permalink, key)))], true, Some("next"))),
        Ok(Page([Message(Str("ok"))], false, None))];
      && FindKeyInThread(replies) == None
      && Fetch(replies).Some?
      && ScanMessages(Fetch(replies).value.all) == Found(0, key)
  {
    var announced := Message(Str(AnnouncementText(permalink, key)));
    var plain := Message(Str("ok"));
    var first := Page([announced], true, Some("next"));
    var second := Page([plain], false, None);
    TwoPageFetch(first, second);
    assert [announced] + [plain] == [announced, plain];
    ExtractAnnouncement(permalink, key);
    ScanStopsAtFirstHit([announced, plain], key);
    ShortTextHasNoKey("ok");
  }

  /** Two pages, the first pointing on to the second: both are gathered, the second is the last. */
  lemma TwoPageFetch(first: Page, second: Page)
    requires Continues(first) && !Continues(second)
    ensures Fetch([Ok(first), Ok(second)])
            == Some(History(2, first.messages + second.messages, second.messages))
  {
    var replies := [Ok(first), Ok(second)];
    assert FetchedExactly(replies, 2);
    FetchedOnce(replies, 2);
    var pages := PagesOf(replies, 2);
    assert pages == [first, second];
    assert pages[..1] == [first];
    assert [first][..0] == [];
    assert Flatten([first]) == Flatten([]) + first.messages;
    assert Flatten(pages) == Flatten(pages[..1]) + second.messages;
    var h := Fetch(replies).value;
    assert h.calls == 2 && h.last == second.messages;
    assert h.all == first.messages + second.messages;
  }

  /** A text shorter than the marker cannot hold an announcement. */
  lemma ShortTextHasNoKey(s: string)
    requires |s| < |Marker|
    ensures ExtractKey(s) == None
  {
    assert forall a, j :: !MatchAt(s, a, j);
  }

  /** With two announcements on the page, the earlier one wins. */
  lemma FirstAnnouncementWins(p1: string, k1: string, p2: string, k2: string)
    requires IsKey(k1) && IsKey(k2)
    requires '|' !in p1 && '\n' !in p1 && '|' !in p2 && '\n' !in p2
    ensures FindKeyInThread([Ok(Page([Message(Str(AnnouncementText(p1, k1))),
                                      Message(Str(AnnouncementText(p2, k2)))], false, None))]) == Some(k1)
  {
    var ms := [Message(Str(AnnouncementText(p1, k1))), Message(Str(AnnouncementText(p2, k2)))];
    var replies := [Ok(Page(ms, false, None))];
    FetchedOnce(replies, 1);
    ExtractAnnouncement(p1, k1);
    ScanStopsAtFirstHit(ms, k1);
    assert Fetch(replies).value.last == ms;
  }

  /** A thread with no fetched page, or whose first call raised, has no key. */
  lemma FailedFetchHasNoKey(replies: seq<Attempt<Page>>)
    requires |replies| == 0 || replies[0].Raised?
    ensures FindKeyInThread(replies) == None
  {
  }
}

=== FILE: transitions.dfy ===
/** Choosing the Jira transition that moves a card to the status a command asks for. */
module Transitions {
  import opened Wrappers
  import opened Text

  /** One entry of the issue's live transition list. */
  datatype Transition = Transition(id: string, name: string)

  /** A transition leads to `target` when the names agree after lower-casing both. */
  predicate LeadsTo(t: Transition, target: string) {
    Lower(t.name) == Lower(target)
  }

  /** The position of the first transition, in list order, that leads to `target`. */
  function FirstMatching(ts: seq<Transition>, target: string): (r: Option<nat>)
    ensures r.Some? ==> r.value < |ts| && LeadsTo(ts[r.value], target)
    ensures r.Some? ==> forall k :: 0 <= k < r.value ==> !LeadsTo(ts[k], target)
    ensures r.None? ==> forall k :: 0 <= k < |ts| ==> !LeadsTo(ts[k], target)
  {
    if |ts| == 0 then None
    else if LeadsTo(ts[0], target) then Some(0)
    else
      match FirstMatching(ts[1..], target)
      case None => None
      case Some(i) => Some(i + 1)
  }

  /** The transition applied for `target`: the first one whose name matches ignoring case. */
  function SelectTransition(ts: seq<Transition>, target: string): (r: Option<Transition>)
    ensures r.Some? <==> exists k :: 0 <= k < |ts| && LeadsTo(ts[k], target)
    ensures r.Some? ==> exists k :: 0 <= k < |ts| && ts[k] == r.value && LeadsTo(ts[k], target)
                          && forall j :: 0 <= j < k ==> !LeadsTo(ts[j], target)
  {
    match FirstMatching(ts, target)
    case None => None
    case Some(k) => Some(ts[k])
  }

  /** The names reported when no transition matches: every name, in the original order. */
  function AvailableNames(ts: seq<Transition>): (r: seq<string>)
    ensures |r| == |ts|
    ensures forall k :: 0 <= k < |ts| ==> r[k] == ts[k].name
  {
    seq(|ts|, k requires 0 <= k < |ts| => ts[k].name)
  }

  /** Case does not matter on either side: a target spelled in any case selects the same transition. */
  lemma SelectionIgnoresCase(ts: seq<Transition>, a: string, b: string)
    requires Lower(a) == Lower(b)
    ensures SelectTransition(ts, a) == SelectTransition(ts, b)
  {
    FirstMatchingIgnoresCase(ts, a, b);
  }

  lemma {:induction false} FirstMatchingIgnoresCase(ts: seq<Transition>, a: string, b: string)
    requires Lower(a) == Lower(b)
    ensures FirstMatching(ts, a) == FirstMatching(ts, b)
  {
    if |ts| > 0 {
      FirstMatchingIgnoresCase(ts[1..], a, b);
    }
  }

  /** Putting transitions in front that do not match leaves the chosen transition unchanged. */
  lemma {:induction false} SkipsNonMatching(pre: seq<Transition>, ts: seq<Transition>, target: string)
    requires forall k :: 0 <= k < |pre| ==> !LeadsTo(pre[k], target)
    ensures SelectTransition(pre + ts, target) == SelectTransition(ts, target)
  {
    if |pre| > 0 {
      assert (pre + ts)[1..] == pre[1..] + ts;
      SkipsNonMatching(pre[1..], ts, target);
      assert FirstMatching(pre + ts, target) == match FirstMatching(pre[1..] + ts, target)
        case None => None case Some(i) => Some(i + 1);
    } else {
      assert pre + ts == ts;
    }
  }

  /** The example: with "In Progress" (1) and "Done" (2) listed, `done` selects 2 and `Blocked` selects nothing. */
  lemma SelectionExample()
    ensures SelectTransition([Transition("1", "In Progress"), Transition("2", "Done")], "done")
            == Some(Transition("2", "Done"))
    ensures SelectTransition([Transition("1", "In Progress"), Transition("2", "Done")], "Blocked") == None
    ensures AvailableNames([Transition("1", "In Progress"), Transition("2", "Done")]) == ["In Progress", "Done"]
  {
    var ts := [Transition("1", "In Progress"), Transition("2", "Done")];
    assert Lower("Done") == Lower("done") by {
      var x, y := Lower("Done"), Lower("done");
      assert x[0] == 'd' == y[0];
    }
    assert !LeadsTo(ts[0], "done") by {
      assert |Lower("In Progress")| != |Lower("done")|;
    }
    assert !LeadsTo(ts[0], "Blocked") by {
      assert |Lower("In Progress")| != |Lower("Blocked")|;
    }
    assert !LeadsTo(ts[1], "Blocked") by {
      assert |Lower("Done")| != |Lower("Blocked")|;
    }
  }
}

=== FILE: wrappers.dfy ===
/** Small failure-carrying datatypes shared by the rest of the model. */
module Wrappers {

  /** An optional value: a missing dictionary key, an unset setting, no match. */
  datatype Option<+T> = None | Some(value: T) {

    /** The value, or `default` when there is none (Python's `dict.get(k, default)`). */
    function GetOr(default: T): T {
      match this
      case Some(v) => v
      case None => default
    }
  }

  /** The answer of a call into Slack or Jira: it either returns a value or raises. */
  datatype Attempt<+T> = Ok(value: T) | Raised
}
